=== FILE: README.md ===
# Data layer of the brain-pile backend, in Dafny

This backend organises content for several tenants. Users belong to projects,
projects hold brain piles (collections), and brain piles hold brain drops
(content items whose bytes live in external storage). This project models the
data layer: the entity schema of `app/models/models.py`, the alternative schema
of `app/models/models_new.py`, and the access functions of `app/db/database.py`.

- `wrappers.dfy`: `Option` and `Result`, which stand for Python's `None` and for
  raised exceptions.
- `json.dfy`: JSON values as a JSONB column stores them. It also states how
  Pydantic dumps and validates an `Optional[str]` field.
- `models.dfy` (module `Models`):
  - the link tables, with their composite keys and insertion constraints;
  - the User, Project, BrainPile, BrainDrop and BrainPileTag records, with their
    defaults;
  - `UserConfig` and `ProjectConfig`, with the column decorators that encode and
    decode them;
  - the derived `BrainDrop.is_archived`.
- `models_new.dfy` (module `ModelsNew`): the newer schema, where `config` is a
  non-null string-keyed map that defaults to empty. Its declarations that match
  models.py are shared with `Models`.
- `database.dfy` (module `Database`) holds three things:
  - The tables, as a `Db` snapshot with one map per entity table keyed by primary
    key, plus the link tables. The `Consistent` predicate states the constraints
    PostgreSQL enforces: primary keys, foreign keys, NOT NULL, column widths and
    unique tag names.
  - One pure function per access function other than `list_projects`. The
    read-only `get_user_config` is `UserConfigOf`, which gives the config or the
    raised error. Each writing function has a `...Step` function, which gives
    the committed effect and the result or raised error, and is proved to keep
    `Consistent`. For `list_projects`, the predicate `ListsExactly` states what
    it returns.
  - The class `Store`, which holds the tables as fields. `Store.GetUserConfig`
    is proved against `UserConfigOf` and `Store.ListProjects` against
    `ListsExactly`; each other method is proved against one step function. Most
    of them perform an access function as written. `Store.NewBrainPile` and
    `Store.AddBrainDrop` perform the corrected `new_brain_pile` and
    `add_brain_drop` instead, because the code as written can never write a pile
    or a drop (see Findings).

`database.py` imports `models.models`, so that is the schema the access layer
uses. Each access function opens its own session, so the model treats each call
as one atomic step: it commits everything or nothing.

In these places the model follows what the code does:

- `get_user_config` raises `ValueError` (`UserNotFound`) for an absent user.
- `set_project_title` and `set_brain_drop_content` raise `AttributeError`
  (`AttributeOfNone`) on a missing row.
- `remove_brain_pile` and `remove_brain_drop` pass `None` to `session.delete`,
  which raises (`UnmappedInstance`).
- `new_project` fails, and writes nothing, when the creator has no User row,
  because the link's `user_id` is a foreign key.
- `remove_brain_pile` does not leave dangling link rows. The ORM deletes the
  pile's rows in both link tables, because both relationships go through those
  tables. It also sets `pile_id` to null on the pile's drops, because `drops` has
  no delete cascade. So the drops survive with no pile, and reading their
  `is_archived` raises. If another pile names the removed pile as its `origin`,
  that foreign key makes the commit fail.
- Loading a User or a Project decodes its stored config. A config that fails
  validation raises (`Invalid`), and nothing is written. This happens in
  `set_user_config`, in `set_project_title`, and in `remove_brain_pile`, whose
  flush loads every linked project (`InvalidLinkedProject`).
- Two functions never commit. For `set_user_config` on an absent user, and for
  `set_project_title`, the model leaves the store unchanged. The intended
  behaviour is stated separately (see Findings).

## Model

| member | source | states |
|---|---|---|
| `Models.StoredVarchar` | app/models/models.py:27 | a string a varchar(n) column takes is stored cut to at most n characters, and only trailing spaces are dropped; a string of at most n characters is stored unchanged |
| `Models.InsertProjectUserLink` | app/models/models.py:20-27 | a link row is accepted exactly when its role fits String(20) (at most 20 characters, or only spaces past the 20th), both key columns are set, the (project, user) pair is new, and the project and the user both exist; the table then maps that pair to the role as the column stores it and keeps every other row |
| `Models.InsertProjectPileLink` | app/models/models.py:12-18 | a project–pile link is accepted exactly when both keys are set, the pair is new, and the project and the pile both exist; the table grows by that one pair |
| `Models.InsertPileTagLink` | app/models/models.py:91-97 | a pile–tag link is accepted exactly when both keys are set, the pair is new, and the pile and the tag both exist; the table grows by that one pair |
| `Models.LinkRolesFit` | app/models/models.py:27 | a link's role defaults to "guest"; both "guest" and "admin" fit the 20-character non-null column |
| `Models.InsertTag` | app/models/models.py:99-101 | a tag whose id and name are both new is inserted under its id (or the next sequence value), and a duplicate name is refused, so tag names stay unique |
| `Models.EncodeUserConfig` | app/models/models.py:34-37 | None is stored as null; a config is stored as an object whose only key is `default_project_id` |
| `Models.DecodeUserConfig` | app/models/models.py:38-41 | a stored null, or an object without the key, gives the default config and never an error; it fails exactly on a non-object or a non-string, non-null field |
| `Models.UserConfigRoundTrip` | app/models/models.py:29-41 | decode(encode(c)) == c for every UserConfig; encoding None reads back as the default, whose `default_project_id` is None |
| `Models.EncodeProjectConfig` | app/models/models.py:61-64 | None is stored as null; a config as an object whose only key is `description` |
| `Models.DecodeProjectConfig` | app/models/models.py:65-68 | a stored null or a missing key gives description "no description"; it fails exactly on a non-object or a non-string, non-null description |
| `Models.ProjectConfigRoundTrip` | app/models/models.py:56-68 | decode(encode(c)) == c for every ProjectConfig, an explicit null description included; None reads back as the "no description" default |
| `Models.RecordDefaults` | app/models/models.py:43-130 | defaults: a User's config is the default UserConfig; a Project's id has 12 characters and its description config is "no description"; a new pile is "unnamed brain pile", not archived, not public, with no creator and no origin; a new drop is "unnamed brain drop" with no content and no pile; neither a pile nor a drop has a primary key |
| `Models.IsArchived` | app/models/models.py:132-134 | a drop's archived flag exists exactly when its pile is present, and it is that pile's flag |
| `Models.ArchivedFollowsPile` | app/models/models.py:126-134 | two drops of one pile always agree on the flag, whatever their own fields; setting the pile's flag sets theirs, with no write to a drop |
| `ModelsNew.StoreConfig` | app/models/models_new.py:57-61 | a map-valued config is always stored as a JSON object holding the map, never null |
| `ModelsNew.LoadConfig` | app/models/models_new.py:78-82 | a stored value loads exactly when it is an object; loading what was stored gives back the map |
| `ModelsNew.NewSchemaDefaults` | app/models/models_new.py:11-82 | User and Project configs default to the empty map; UserConfig's `default_project_id` and ProjectConfig's `default_background` default to None; a Project id has 12 characters |
| `Database.DumpUser` | app/models/models.py:43-49 | writing a User keeps its id and name, and its config is stored as a JSON object, never as null |
| `Database.UserRowRoundTrip` | app/models/models.py:32-49 | the stored config of a written User decodes to that User's config |
| `Database.LoadProject` | app/models/models.py:65-80 | loading a project row succeeds exactly when its config decodes, and keeps id, title and description; a null config loads as "no description" |
| `Database.DumpProject` | app/models/models.py:59-80 | writing a Project keeps its id, title and description, and its config is stored as a JSON object, never as null |
| `Database.ProjectRowRoundTrip` | app/models/models.py:59-80 | loading a written Project gives back the same Project |
| `Database.TagInsertKeepsConsistent` | app/models/models.py:99-101 | a tag the tag insert accepts keeps every schema constraint, tag-name uniqueness included |
| `Database.PileTagLinkKeepsConsistent` | app/models/models.py:91-97 | a pile–tag link the link insert accepts, given the existing piles and tags, keeps every schema constraint |
| `Database.UserConfigOf` | app/db/database.py:19-24 | an absent user raises ValueError, and only then; a stored null config reads as the default; an existing user's config is returned exactly when it validates |
| `Database.SetUserConfigStep` | app/db/database.py:26-35 | for an existing user whose stored config loads, only that user's config is replaced, and the constraints still hold; one whose stored config fails validation raises Invalid and nothing changes; for an absent user the store is unchanged |
| `Database.SetThenGetUserConfig` | app/db/database.py:32-35 | setting an existing user's config succeeds exactly when the stored one loads, and getting it afterwards returns exactly the config set |
| `Database.SetUserConfigOfAbsentUserIsLost` | app/db/database.py:29-31 | after setting the config of an absent user, getting it still raises |
| `Database.UpsertUserConfigStep` | app/db/database.py:26-35 | the intended get-or-create: for an existing user it does exactly what set_user_config does, so only the config changes, and a stored config that fails validation raises with nothing changed; an absent user is inserted with the given name and config. Afterwards getting the config returns it, and other users and tables are unchanged |
| `Database.NewProjectStep` | app/db/database.py:37-46 | it succeeds exactly when the generated id is new and the creator exists. On success it adds the Project with that id, the title and the default config, and the link (id, creator) with role "admin", in one commit. On failure nothing is written |
| `Database.NewProjectHasOneAdmin` | app/db/database.py:42-44 | a new project has exactly one member link, its creator's, with role "admin" |
| `Database.SetProjectTitleStep` | app/db/database.py:52-56 | a missing project raises AttributeError; a project whose stored config fails validation raises Invalid; it fails in no other case, and in every case the store is unchanged, because nothing is committed |
| `Database.SetProjectTitleIsLost` | app/db/database.py:52-56 | after set_project_title, the stored title is still the old one |
| `Database.RenameProjectStep` | app/db/database.py:52-56 | the intended version: a missing project is reported as not found, and one whose stored config fails validation raises Invalid, changing nothing; otherwise only that project's title changes, and it is committed |
| `Database.RenameThenLoad` | app/db/database.py:52-56 | after the intended rename, loading the project shows the new title and nothing else changed |
| `Database.NewBrainPileAsWritten` | app/db/database.py:58-60 | appending the project-id string to the relationship raises before any write; the store is unchanged |
| `Database.InsertPileStep` | app/db/database.py:61-65 | a pile and its project link commit together. This happens exactly when the pile's key is set and new and its project, creator and origin exist. Otherwise nothing is written, and a pile without a key is refused as NOT NULL |
| `Database.PileWithoutIdIsRefused` | app/db/database.py:59-63 | a pile built as `BrainPile(title=title)` has no id, so its insert is refused |
| `Database.NewBrainPileStep` | app/db/database.py:58-65 | the intended version: it succeeds exactly when the id is new and the project exists. The pile has the title and the defaults, and the only changes are that pile and its one link to the project |
| `Database.RemoveBrainPileStep` | app/db/database.py:67-71 | an absent pile raises; if a linked project's stored config fails validation, or the pile is another pile's origin, the commit fails and nothing changes. Otherwise exactly that pile is deleted, its drops lose their pile, its rows in both link tables are deleted, and the constraints still hold |
| `Database.RemovedPileOrphansDrops` | app/db/database.py:67-71 | after a pile is removed, each of its drops still exists, with no pile, and reading its `is_archived` raises |
| `Database.InsertDropStep` | app/db/database.py:75-79 | a drop is inserted exactly when its key is set and new and its pile, if it names one, exists; nothing else changes |
| `Database.DropWithoutIdIsRefused` | app/db/database.py:75-78 | the drop add_brain_drop builds has no id, so its insert is refused |
| `Database.AddBrainDropStep` | app/db/database.py:74-80 | with a generated id it succeeds exactly when the id is new and the pile exists. It adds one drop with that id and the given title, content id and pile, whose archived flag is that pile's, returns that drop as stored, and leaves every other row alone |
| `Database.RemoveBrainDropStep` | app/db/database.py:82-86 | an absent drop raises; otherwise only that drop is deleted |
| `Database.SetBrainDropContentStep` | app/db/database.py:89-94 | an absent drop raises AttributeError; otherwise only that drop's `content_resource_id` changes, and it is committed |
| `Database.Store.constructor` | app/db/database.py:17 | the created tables are empty and satisfy every constraint |
| `Database.Store.GetUserConfig` | app/db/database.py:19-24 | returns the decoded stored config, raises for an absent user, and changes nothing |
| `Database.Store.SetUserConfig` | app/db/database.py:26-35 | returns the result and updates the tables exactly as `SetUserConfigStep` says, and keeps the constraints |
| `Database.Store.NewProject` | app/db/database.py:37-46 | flushes the project, adds the admin link and commits, then refreshes; the result and tables are those of `NewProjectStep` |
| `Database.Store.ListProjects` | app/db/database.py:48-50 | returns as many projects as are stored, each the loaded row of a distinct stored key, every key included, and changes nothing; it fails exactly when some stored config does not validate |
| `Database.Store.SetProjectTitle` | app/db/database.py:52-56 | raises on a missing project or on a stored config that fails validation, and otherwise leaves the tables unchanged, as `SetProjectTitleStep` says |
| `Database.Store.NewBrainPile` | app/db/database.py:58-65 | performs the intended pile-and-link insert of `NewBrainPileStep` and keeps the constraints |
| `Database.Store.RemoveBrainPile` | app/db/database.py:67-71 | refuses an absent pile, a linked project that does not load and a referenced origin; otherwise nulls the drops' pile, deletes the link rows and the pile, as `RemoveBrainPileStep` says |
| `Database.Store.AddBrainDrop` | app/db/database.py:74-80 | returns the drop and updates the tables exactly as `AddBrainDropStep` says, and keeps the constraints |
| `Database.Store.RemoveBrainDrop` | app/db/database.py:82-86 | deletes the drop as `RemoveBrainDropStep` says |
| `Database.Store.SetBrainDropContent` | app/db/database.py:89-94 | sets the drop's content id as `SetBrainDropContentStep` says |

## Left out

- Engine and environment setup, which builds the SQL URL from environment variables (app/db/database.py:9-17). The `Store` constructor stands for the empty tables that `create_all` makes.
- The identity-provider token exchange (app/core/keycloak_auth.py), the routers, app/main.py and app/core/common.py. These are network I/O and HTTP glue.
- Randomness. The nanoid that `generate_nanoid` returns, and the UUIDs the corrected pile and drop inserts use, are parameters. A generated project id is any 12-character string, and the nanoid alphabet is not modelled. A generated id that is already taken is a duplicate primary key.
- Sessions, transaction isolation and concurrency. Each call is one atomic step.
- The ORM relationship lists (`User.projects`, `Project.piles`, `BrainPile.drops` and the rest). They are derived from the link tables and foreign keys, not stored.
- Pydantic and SQLAlchemy validation beyond field defaults. That includes the conversion of string ids to UUIDs, JSON floats (numbers are integers), and the exact order in which PostgreSQL reports several broken constraints at once (the model reports one).
- No operation in app/db/database.py inserts tags or tag links, or changes a pile's `is_archived`. Those constraints are modelled by the link and tag insert functions, which `Database.TagInsertKeepsConsistent` and `Database.PileTagLinkKeepsConsistent` tie to the schema constraints, and by `Models.ArchivedFollowsPile`.
- `ModelsNew.LoadConfig`: a JSON null stored in the non-null column would load as None. The model treats it as a value that does not load.
- `Database.Store.ListProjects`: it requires only that each project row's id is its key, which `Valid()` implies, not the whole `Valid()`.
- `Database.Store.NewBrainPile`: it performs the corrected `new_brain_pile` of `NewBrainPileStep`, not the code as written, which raises before any write (`NewBrainPileAsWritten`).
- `Database.Store.AddBrainDrop`: it performs the corrected `add_brain_drop` with a generated id, not the code as written, whose insert the database refuses (`DropWithoutIdIsRefused`).
- `InvalidLinkedProject` does not say which linked project failed validation, because the order in which the flush loads them is not fixed.
- `Database.UpsertUserConfigStep`: it takes the new user's `name` as a parameter. The User row's `name` column is NOT NULL, and `set_user_config` has no name to give.

## Findings

| source | as written | input that shows it | evidently intended | confidence | as-written member | corrected member |
|---|---|---|---|---|---|---|
| app/db/database.py:29-31 | the absent-user branch adds a new User to a session that closes without a commit | `set_user_config(u, c)` for an id `u` with no User row, then `get_user_config(u)`: it still raises | the user is created with config `c` (get-or-create) | high, not executed | `Database.SetUserConfigOfAbsentUserIsLost` | `Database.UpsertUserConfigStep` |
| app/db/database.py:52-56 | the new title is set on the loaded project, which is never committed; a missing project is `None` and raises AttributeError | a project `p` titled "A": `set_project_title(p, "B")` leaves it titled "A" | the title is committed, and a missing project is reported as not found | high, not executed | `Database.SetProjectTitleIsLost` | `Database.RenameProjectStep` |
| app/db/database.py:60 | the project-id string is appended to the ORM `projects` relationship, which accepts only mapped objects | `new_brain_pile("Notes", "abc")` raises before any write | the pile is created and linked to the project | high, not executed | `Database.NewBrainPileAsWritten` | `Database.NewBrainPileStep` |
| app/db/database.py:75 | `BrainDrop.id` defaults to None and nothing generates it, but the UUID primary key is NOT NULL | `add_brain_drop(pile, "Idea", "")` for an existing pile is refused by the database | each new drop gets a fresh UUID | medium, not executed | `Database.DropWithoutIdIsRefused` | `Database.AddBrainDropStep` |
| app/models/models.py:108 | `BrainPile.id` defaults to None and nothing generates it, but the UUID primary key is NOT NULL | inserting `BrainPile(title="Notes")` is refused by the database | each new pile gets a fresh UUID | medium, not executed | `Database.PileWithoutIdIsRefused` | `Database.NewBrainPileStep` |

=== FILE: database.dfy ===
/** The access layer of app/db/database.py over the schema of app/models/models.py.

    The database is a set of tables: one map per entity table, keyed by primary
    key, and the three link tables. `Db` is a snapshot of them, and `Consistent`
    holds the constraints PostgreSQL enforces on it: primary keys, foreign keys,
    NOT NULL, String(n) widths and the unique tag name.

    Each function of database.py runs in its own session, and so is one atomic
    step: it commits all its writes or none. A `...Step` function gives the
    committed effect of one call, and the methods of `Store` perform the same call
    on the tables, with the step function as their specification. The code never
    commits in some places, and it fails before touching the database in others;
    the steps say what the code does, and separate corrected steps say what was
    evidently intended. */
module Database {
  import opened Wrappers
  import opened Json
  import opened Models

  /** What a call raises. */
  datatype DbError =
    | UserNotFound                    // get_user_config's ValueError for an absent user
    | NotFound                        // the corrected steps' report of an absent row
    | AttributeOfNone                 // AttributeError: assigning a field of the None that session.get returns
    | UnmappedInstance                // session.delete(None)
    | AttributeOfStr                  // AttributeError: a str appended to an ORM relationship list
    | Constraint(cause: ConstraintError)  // the database refused the commit; nothing is written
    | Invalid(reason: ValidationError)  // a stored config failed model_validate on load
    | InvalidLinkedProject            // a linked project's stored config failed model_validate while the
                                      // flush loaded a collection; which one is reported is left open

  // ---------------------------------------------------------------------------
  // Rows as stored: the config column holds JSON, through the column decorators.

  datatype UserRow = UserRow(id: Option<Uuid>, name: string, config: Json)

  datatype ProjectRow = ProjectRow(id: string, title: string, description: Option<string>, config: Json)

  /** Writing a User object: its typed config goes through the decorator, which
      never stores null for a config that is set. */
  function DumpUser(user: User): (row: UserRow)
    ensures row.id == user.id && row.name == user.name && row.config.JObject?
  {
    UserRow(user.id, user.name, EncodeUserConfig(Some(user.config)))
  }

  /** Reading back the config of a written User gives the User's config. */
  lemma UserRowRoundTrip(user: User)
    ensures DecodeUserConfig(DumpUser(user).config) == Ok(user.config)
  {
    UserConfigRoundTrip(Some(user.config));
  }

  /** Loading a Project row: its config column is decoded, which can fail. */
  function LoadProject(row: ProjectRow): (r: Result<Project, ValidationError>)
    ensures r.Ok? <==> DecodeProjectConfig(row.config).Ok?
    ensures r.Ok? ==> r.value.id == row.id && r.value.title == row.title && r.value.description == row.description
    ensures row.config == JNull ==> r.Ok? && r.value.config.description == Some(DefaultDescription)
  {
    var config :- DecodeProjectConfig(row.config);
    Ok(Project(row.id, row.title, row.description, config))
  }

  /** Writing a Project object: its typed config goes through the decorator,
      which never stores null for a config that is set. */
  function DumpProject(project: Project): (row: ProjectRow)
    ensures row.id == project.id && row.title == project.title && row.description == project.description
    ensures row.config.JObject?
  {
    ProjectRow(project.id, project.title, project.description, EncodeProjectConfig(Some(project.config)))
  }

  /** Loading a written Project gives back the same Project. */
  lemma ProjectRowRoundTrip(project: Project)
    ensures LoadProject(DumpProject(project)) == Ok(project)
  {
    ProjectConfigRoundTrip(Some(project.config));
  }

  // ---------------------------------------------------------------------------
  // The tables and their constraints.

  datatype Db = Db(
    users: map<Uuid, UserRow>,
    projects: map<string, ProjectRow>,
    piles: map<Uuid, BrainPile>,
    drops: map<Uuid, BrainDrop>,
    tags: map<TagId, BrainPileTag>,
    projectUsers: ProjectUserLinks,
    projectPiles: ProjectPileLinks,
    pileTags: PileTagLinks)

  const EmptyDb := Db(map[], map[], map[], map[], map[], map[], {}, {})

  /** A nullable foreign key: either null or the key of a row of `table`. */
  predicate RefersTo<K, V>(ref: Option<K>, table: map<K, V>) {
    ref.None? || ref.value in table
  }

  /** Users are stored under their own id. */
  predicate UsersKeyed(users: map<Uuid, UserRow>) {
    forall u :: u in users ==> users[u].id == Some(u)
  }

  /** Projects are stored under their own id, which fits String(12). */
  predicate ProjectsKeyed(projects: map<string, ProjectRow>) {
    forall p :: p in projects ==> projects[p].id == p && |p| <= NanoIdSize
  }

  /** Piles are stored under their own id; creator and origin name existing rows. */
  predicate PilesValid(piles: map<Uuid, BrainPile>, users: map<Uuid, UserRow>) {
    forall p :: p in piles ==>
      piles[p].id == Some(p) && RefersTo(piles[p].creatorId, users) && RefersTo(piles[p].origin, piles)
  }

  /** Drops are stored under their own id; their pile exists. */
  predicate DropsValid(drops: map<Uuid, BrainDrop>, piles: map<Uuid, BrainPile>) {
    forall d :: d in drops ==> drops[d].id == Some(d) && RefersTo(drops[d].pileId, piles)
  }

  /** Tags are stored under their own id, with unique names. */
  predicate TagsValid(tags: map<TagId, BrainPileTag>) {
    (forall t :: t in tags ==> tags[t].id == Some(t)) && UniqueTagNames(tags)
  }

  /** Project memberships name existing rows, and roles fit String(20). */
  predicate ProjectUsersValid(links: ProjectUserLinks, projects: map<string, ProjectRow>, users: map<Uuid, UserRow>) {
    forall k :: k in links ==> k.0 in projects && k.1 in users && |links[k]| <= RoleWidth
  }

  /** Project–pile links name existing rows. */
  predicate ProjectPilesValid(links: ProjectPileLinks, projects: map<string, ProjectRow>, piles: map<Uuid, BrainPile>) {
    forall k :: k in links ==> k.0 in projects && k.1 in piles
  }

  /** Pile–tag links name existing rows. */
  predicate PileTagsValid(links: PileTagLinks, piles: map<Uuid, BrainPile>, tags: map<TagId, BrainPileTag>) {
    forall k :: k in links ==> k.0 in piles && k.1 in tags
  }

  /** The constraints the schema declares. Every row's primary key is its map key;
      every foreign key, in entity rows and in link rows, names an existing row;
      project ids and roles fit their String(12) and String(20) columns; tag
      names are unique. */
  predicate Consistent(db: Db) {
    && UsersKeyed(db.users)
    && ProjectsKeyed(db.projects)
    && PilesValid(db.piles, db.users)
    && DropsValid(db.drops, db.piles)
    && TagsValid(db.tags)
    && ProjectUsersValid(db.projectUsers, db.projects, db.users)
    && ProjectPilesValid(db.projectPiles, db.projects, db.piles)
    && PileTagsValid(db.pileTags, db.piles, db.tags)
  }

  /** A tag accepted by the tag insert keeps every constraint: its id is its
      key and tag names stay unique. */
  lemma TagInsertKeepsConsistent(db: Db, serial: TagId, row: BrainPileTag)
    requires Consistent(db) && InsertTag(db.tags, serial, row).Ok?
    ensures Consistent(db.(tags := InsertTag(db.tags, serial, row).value))
  {
  }

  /** A pile–tag link accepted by the link insert, given the piles and tags that
      exist, keeps every constraint: the new link names existing rows. */
  lemma PileTagLinkKeepsConsistent(db: Db, row: BrainPileTagLink)
    requires Consistent(db) && InsertPileTagLink(db.pileTags, db.piles, db.tags, row).Ok?
    ensures Consistent(db.(pileTags := InsertPileTagLink(db.pileTags, db.piles, db.tags, row).value))
  {
  }

  /** The outcome of one call: what it returns or raises, and the tables after it. */
  datatype Step<T> = Step(result: Result<T, DbError>, db: Db)

  // ---------------------------------------------------------------------------
  // User config.

  /** get_user_config: the stored config of an existing user, decoded; a stored
      null reads as the default config. */
  function UserConfigOf(db: Db, userId: Uuid): (r: Result<UserConfig, DbError>)
    ensures r == Err(UserNotFound) <==> userId !in db.users
    ensures userId in db.users && db.users[userId].config == JNull ==> r == Ok(UserConfig())
    ensures userId in db.users ==> (r.Ok? <==> DecodeUserConfig(db.users[userId].config).Ok?)
  {
    if userId !in db.users then Err(UserNotFound)
    else match DecodeUserConfig(db.users[userId].config)
      case Ok(config) => Ok(config)
      case Err(e) => Err(Invalid(e))
  }

  /** set_user_config as written. `session.get` loads the user, decoding its
      stored config, which raises when that config fails validation; nothing is
      written then. An existing user's config is replaced and committed, and
      nothing else changes. For an absent user a User is built and added to the
      session, which closes without a commit: nothing is written. */
  function SetUserConfigStep(db: Db, userId: Uuid, config: UserConfig): (r: Step<()>)
    requires Consistent(db)
    ensures userId !in db.users ==> r == Step(Ok(()), db)
    ensures r.result.Err? <==> userId in db.users && UserConfigOf(db, userId).Err?
    ensures r.result.Err? ==> r == Step(Err(UserConfigOf(db, userId).error), db)
    ensures r.result.Ok? && userId in db.users ==>
              && userId in r.db.users && r.db == db.(users := db.users[userId := r.db.users[userId]])
              && r.db.users[userId].id == db.users[userId].id && r.db.users[userId].name == db.users[userId].name
    ensures Consistent(r.db)
  {
    if userId !in db.users then Step(Ok(()), db)
    else match DecodeUserConfig(db.users[userId].config)
      case Err(e) => Step(Err(Invalid(e)), db)
      case Ok(_) => Step(Ok(()), db.(users := db.users[userId := db.users[userId].(config := EncodeUserConfig(Some(config)))]))
  }

  /** Setting an existing user's config succeeds exactly when the stored one
      loads, and getting it afterwards returns the config set. */
  lemma SetThenGetUserConfig(db: Db, userId: Uuid, config: UserConfig)
    requires Consistent(db) && userId in db.users
    ensures var r := SetUserConfigStep(db, userId, config);
            && (r.result.Ok? <==> UserConfigOf(db, userId).Ok?)
            && (r.result.Ok? ==> UserConfigOf(r.db, userId) == Ok(config))
  {
    if UserConfigOf(db, userId).Ok? {
      var row := db.users[userId].(config := EncodeUserConfig(Some(config)));
      StoredConfigReadsBack(db, userId, row, config);
    }
  }

  /** The insert branch is lost: after setting the config of an absent user,
      getting it still raises. */
  lemma SetUserConfigOfAbsentUserIsLost(db: Db, userId: Uuid, config: UserConfig)
    requires Consistent(db) && userId !in db.users
    ensures UserConfigOf(SetUserConfigStep(db, userId, config).db, userId) == Err(UserNotFound)
  {
  }

  /** set_user_config as intended (get-or-create): an absent user is inserted with
      the config, and committed; an existing one is loaded as before, so a stored
      config that fails validation still raises. The User row's `name` column is
      NOT NULL, so the insert needs a name, which set_user_config does not have. */
  function UpsertUserConfigStep(db: Db, userId: Uuid, name: string, config: UserConfig): (r: Step<()>)
    requires Consistent(db)
    ensures r.result.Err? <==> userId in db.users && UserConfigOf(db, userId).Err?
    ensures r.result.Err? ==> r == Step(Err(UserConfigOf(db, userId).error), db)
    ensures r.result.Ok? ==>
              && userId in r.db.users && r.db == db.(users := db.users[userId := r.db.users[userId]])
              && UserConfigOf(r.db, userId) == Ok(config)
    ensures userId in db.users ==> r == SetUserConfigStep(db, userId, config)
    ensures userId !in db.users ==> r.db.users[userId] == DumpUser(User(id := Some(userId), name := name, config := config))
    ensures Consistent(r.db)
  {
    if userId in db.users && DecodeUserConfig(db.users[userId].config).Err? then
      Step(Err(Invalid(DecodeUserConfig(db.users[userId].config).error)), db)
    else
      var row := if userId in db.users then db.users[userId].(config := EncodeUserConfig(Some(config)))
                 else DumpUser(User(id := Some(userId), name := name, config := config));
      StoredConfigReadsBack(db, userId, row, config);
      UsersGrowKeepsConsistent(db, db.users[userId := row]);
      Step(Ok(()), db.(users := db.users[userId := row]))
  }

  /** A user row whose config column holds an encoded config reads back as that config. */
  lemma StoredConfigReadsBack(db: Db, userId: Uuid, row: UserRow, config: UserConfig)
    requires row.config == EncodeUserConfig(Some(config))
    ensures UserConfigOf(db.(users := db.users[userId := row]), userId) == Ok(config)
  {
    UserConfigRoundTrip(Some(config));
  }

  /** Adding or rewriting users, each under its own id, keeps every constraint:
      other tables refer to users by key only. */
  lemma UsersGrowKeepsConsistent(db: Db, users: map<Uuid, UserRow>)
    requires Consistent(db)
    requires db.users.Keys <= users.Keys
    requires forall u :: u in users ==> users[u].id == Some(u)
    ensures Consistent(db.(users := users))
  {
    var after := db.(users := users);
    forall p | p in after.piles
      ensures RefersTo(after.piles[p].creatorId, after.users)
    {
      assert RefersTo(db.piles[p].creatorId, db.users);
    }
    forall k | k in after.projectUsers
      ensures k.1 in after.users
    {
      assert k.1 in db.users;
    }
  }

  // ---------------------------------------------------------------------------
  // Projects.

  /** new_project. The Project gets the generated id `id` and is flushed; a taken
      id is a duplicate primary key. The ProjectUserLink (project, creator,
      "admin") is added and both commit together; a creator with no User row
      breaks the link's foreign key and the commit rolls the project back too. */
  function NewProjectStep(db: Db, creator: Uuid, title: string, id: NanoId): (r: Step<Project>)
    requires Consistent(db)
    ensures Consistent(r.db)
    ensures r.result.Ok? <==> id !in db.projects && creator in db.users
    ensures r.result.Err? ==> r.db == db
    ensures r.result.Ok? ==> r.result.value == Project(id, title) && r.result.value.config == ProjectConfig()
    ensures r.result.Ok? ==>
              && (id, creator) !in db.projectUsers
              && r.db == db.(projects := db.projects[id := DumpProject(Project(id, title))],
                             projectUsers := db.projectUsers[(id, creator) := AdminRole])
  {
    var project := Project(id, title);
    if id in db.projects then Step(Err(Constraint(UniqueViolation)), db)
    else
      var flushed := db.(projects := db.projects[id := DumpProject(project)]);
      match InsertProjectUserLink(flushed.projectUsers, flushed.projects, db.users, ProjectUserLink(Some(id), Some(creator), AdminRole))
      case Err(e) => Step(Err(Constraint(e)), db)
      case Ok(links) =>
        ProjectAddedKeepsConsistent(db, creator, DumpProject(project));
        Step(Ok(project), flushed.(projectUsers := links))
  }

  /** When the admin link is accepted, new_project commits the project row and
      exactly that link. */
  lemma NewProjectCommits(db: Db, creator: Uuid, title: string, id: NanoId, links: ProjectUserLinks)
    requires Consistent(db) && id !in db.projects
    requires InsertProjectUserLink(db.projectUsers, db.projects[id := DumpProject(Project(id, title))], db.users,
                                   ProjectUserLink(Some(id), Some(creator), AdminRole)) == Ok(links)
    ensures NewProjectStep(db, creator, title, id)
            == Step(Ok(Project(id, title)), db.(projects := db.projects[id := DumpProject(Project(id, title))], projectUsers := links))
  {
  }

  /** Adding a project row under a new key of fitting length, with one admin link
      to an existing user, keeps every constraint. */
  lemma ProjectAddedKeepsConsistent(db: Db, creator: Uuid, row: ProjectRow)
    requires Consistent(db) && row.id !in db.projects && |row.id| <= NanoIdSize && creator in db.users
    ensures (row.id, creator) !in db.projectUsers
    ensures Consistent(db.(projects := db.projects[row.id := row],
                           projectUsers := db.projectUsers[(row.id, creator) := AdminRole]))
  {
    var projects := db.projects[row.id := row];
    var links := db.projectUsers[(row.id, creator) := AdminRole];
    forall k | k in links
      ensures k.0 in projects && k.1 in db.users && |links[k]| <= RoleWidth
    {
      if k != (row.id, creator) {
        assert k in db.projectUsers;
      }
    }
    forall k | k in db.projectPiles
      ensures k.0 in projects
    {
    }
  }

  /** A new project has exactly one member link, its creator's, with role "admin". */
  lemma NewProjectHasOneAdmin(db: Db, creator: Uuid, title: string, id: NanoId)
    requires Consistent(db)
    requires NewProjectStep(db, creator, title, id).result.Ok?
    ensures var after := NewProjectStep(db, creator, title, id).db;
            && (id, creator) in after.projectUsers && after.projectUsers[(id, creator)] == AdminRole
            && forall k :: k in after.projectUsers && k.0 == id ==> k == (id, creator)
  {
  }

  /** set_project_title as written. An absent project is None, and assigning its
      title raises. Loading an existing project decodes its stored config, which
      raises when that config fails validation. Otherwise the title is changed on
      the loaded object, which is added to a session that closes without a
      commit: nothing is written. */
  function SetProjectTitleStep(db: Db, projectId: string, title: string): (r: Step<()>)
    ensures r.db == db
    ensures r.result.Err? <==> projectId !in db.projects || LoadProject(db.projects[projectId]).Err?
    ensures projectId !in db.projects ==> r.result == Err(AttributeOfNone)
    ensures projectId in db.projects && LoadProject(db.projects[projectId]).Err? ==>
              r.result == Err(Invalid(LoadProject(db.projects[projectId]).error))
  {
    if projectId !in db.projects then Step(Err(AttributeOfNone), db)
    else match LoadProject(db.projects[projectId])
      case Err(e) => Step(Err(Invalid(e)), db)
      case Ok(_) => Step(Ok(()), db)
  }

  /** The rename is lost: the stored title is still the old one. */
  lemma SetProjectTitleIsLost(db: Db, projectId: string, title: string)
    requires projectId in db.projects && db.projects[projectId].title != title
    ensures var after := SetProjectTitleStep(db, projectId, title).db;
            projectId in after.projects && after.projects[projectId].title != title
  {
  }

  /** set_project_title as intended: an absent project is reported, a project
      whose stored config fails validation raises on load as before, and any
      other gets the new title, committed, and nothing else changes. */
  function RenameProjectStep(db: Db, projectId: string, title: string): (r: Step<()>)
    requires Consistent(db)
    ensures Consistent(r.db)
    ensures projectId !in db.projects ==> r == Step(Err(NotFound), db)
    ensures projectId in db.projects && LoadProject(db.projects[projectId]).Err? ==>
              r == Step(Err(Invalid(LoadProject(db.projects[projectId]).error)), db)
    ensures projectId in db.projects && LoadProject(db.projects[projectId]).Ok? ==>
              && r.result.Ok?
              && r.db == db.(projects := r.db.projects)
              && r.db.projects.Keys == db.projects.Keys
              && r.db.projects[projectId] == db.projects[projectId].(title := title)
              && (forall p :: p in db.projects && p != projectId ==> r.db.projects[p] == db.projects[p])
  {
    if projectId !in db.projects then Step(Err(NotFound), db)
    else match LoadProject(db.projects[projectId])
      case Err(e) => Step(Err(Invalid(e)), db)
      case Ok(_) => Step(Ok(()), db.(projects := db.projects[projectId := db.projects[projectId].(title := title)]))
  }

  /** After the intended rename, loading the project shows the new title. */
  lemma RenameThenLoad(db: Db, projectId: string, title: string)
    requires Consistent(db) && projectId in db.projects
    requires LoadProject(db.projects[projectId]).Ok?
    ensures var after := RenameProjectStep(db, projectId, title).db;
            LoadProject(after.projects[projectId]) == Ok(LoadProject(db.projects[projectId]).value.(title := title))
  {
  }

  // ---------------------------------------------------------------------------
  // Brain piles.

  /** new_brain_pile as written: `new_pile.projects.append(project_id)` appends a
      str to an ORM relationship list, which raises before any session opens. */
  function NewBrainPileAsWritten(db: Db, title: string, projectId: string): (r: Step<BrainPile>)
    ensures r.result.Err? && r.result.error == AttributeOfStr
    ensures r.db == db
  {
    Step(Err(AttributeOfStr), db)
  }

  /** Inserting a pile together with its ProjectBrainPileLink in one commit. The
      primary key must be set and new, the creator and origin must name existing
      rows (the pile itself included, for its origin), and so must the project. */
  function InsertPileStep(db: Db, pile: BrainPile, projectId: string): (r: Step<BrainPile>)
    requires Consistent(db)
    ensures Consistent(r.db)
    ensures pile.id.None? ==> r == Step(Err(Constraint(NotNullViolation)), db)
    ensures r.result.Ok? <==> && pile.id.Some? && pile.id.value !in db.piles && projectId in db.projects
                              && RefersTo(pile.creatorId, db.users) && RefersTo(pile.origin, db.piles[pile.id.value := pile])
    ensures r.result.Err? ==> r.db == db
    ensures r.result.Ok? ==>
              && r.result.value == pile
              && r.db == db.(piles := r.db.piles, projectPiles := r.db.projectPiles)
              && r.db.piles == db.piles[pile.id.value := pile]
              && r.db.projectPiles == db.projectPiles + {(projectId, pile.id.value)}
  {
    if pile.id.None? then Step(Err(Constraint(NotNullViolation)), db)
    else
      var id := pile.id.value;
      if id in db.piles then Step(Err(Constraint(UniqueViolation)), db)
      else if !RefersTo(pile.creatorId, db.users) || !RefersTo(pile.origin, db.piles[id := pile]) then
        Step(Err(Constraint(ForeignKeyViolation)), db)
      else match InsertProjectPileLink(db.projectPiles, db.projects, db.piles[id := pile], ProjectBrainPileLink(Some(projectId), Some(id)))
        case Err(e) => Step(Err(Constraint(e)), db)
        case Ok(links) => Step(Ok(pile), db.(piles := db.piles[id := pile], projectPiles := links))
  }

  /** A pile built as new_brain_pile builds it, `BrainPile(title=title)`, has no
      primary key, and nothing generates one: the insert is refused. */
  lemma PileWithoutIdIsRefused(db: Db, title: string, projectId: string)
    requires Consistent(db)
    ensures InsertPileStep(db, BrainPile(title := title), projectId) == Step(Err(Constraint(NotNullViolation)), db)
  {
  }

  /** new_brain_pile as intended: a pile with the given title, a freshly generated
      id and every other field at its default, linked to the project, in one
      commit. Every other table, and every other row of the two it writes, is
      untouched. */
  function NewBrainPileStep(db: Db, title: string, projectId: string, freshId: Uuid): (r: Step<BrainPile>)
    requires Consistent(db)
    ensures Consistent(r.db)
    ensures r.result.Ok? <==> freshId !in db.piles && projectId in db.projects
    ensures r.result.Err? ==> r.db == db
    ensures r.result.Ok? ==>
              && r.result.value == BrainPile(id := Some(freshId), title := title)
              && !r.result.value.isArchived && !r.result.value.isPublic
              && r.result.value.creatorId.None? && r.result.value.origin.None?
              && r.db.piles.Keys == db.piles.Keys + {freshId} && r.db.piles[freshId] == r.result.value
              && r.db == db.(piles := db.piles[freshId := r.result.value],
                             projectPiles := db.projectPiles + {(projectId, freshId)})
  {
    InsertPileStep(db, BrainPile(id := Some(freshId), title := title), projectId)
  }

  /** Some other pile was forked from this one: its `origin` foreign key names it. */
  predicate OriginReferenced(db: Db, pileId: Uuid) {
    exists q :: q in db.piles && q != pileId && db.piles[q].origin == Some(pileId)
  }

  /** Every project linked to the pile loads: its stored config passes validation. */
  predicate LinkedProjectsLoad(db: Db, pileId: Uuid) {
    forall k :: k in db.projectPiles && k.1 == pileId ==> k.0 in db.projects && LoadProject(db.projects[k.0]).Ok?
  }

  /** remove_brain_pile. An absent pile is None, which session.delete refuses. For
      an existing pile the flush loads its `projects` collection to delete the
      link rows, decoding each linked project's config, which raises when one
      fails validation. Then it sets `pile_id` to null on the pile's drops
      (the `drops` relationship has no delete cascade), deletes the pile's rows of
      both link tables (relationships through a link table do that), then deletes
      the pile; a pile that another pile names as its `origin` breaks that foreign
      key, and the commit is refused. */
  function RemoveBrainPileStep(db: Db, pileId: Uuid): (r: Step<()>)
    requires Consistent(db)
    ensures Consistent(r.db)
    ensures pileId !in db.piles ==> r == Step(Err(UnmappedInstance), db)
    ensures pileId in db.piles && !LinkedProjectsLoad(db, pileId) ==> r == Step(Err(InvalidLinkedProject), db)
    ensures r.result.Ok? <==> pileId in db.piles && LinkedProjectsLoad(db, pileId) && !OriginReferenced(db, pileId)
    ensures r.result.Err? ==> r.db == db
    ensures r.result.Ok? ==>
              && r.db == db.(piles := r.db.piles, drops := r.db.drops, projectPiles := r.db.projectPiles, pileTags := r.db.pileTags)
              && r.db.piles == db.piles - {pileId}
              && r.db.drops.Keys == db.drops.Keys
              && (forall d :: d in db.drops && db.drops[d].pileId != Some(pileId) ==> r.db.drops[d] == db.drops[d])
              && (forall d :: d in db.drops && db.drops[d].pileId == Some(pileId) ==> r.db.drops[d] == db.drops[d].(pileId := None))
              && (forall k :: k in r.db.projectPiles <==> k in db.projectPiles && k.1 != pileId)
              && (forall k :: k in r.db.pileTags <==> k in db.pileTags && k.0 != pileId)
  {
    if pileId !in db.piles then Step(Err(UnmappedInstance), db)
    else if !LinkedProjectsLoad(db, pileId) then Step(Err(InvalidLinkedProject), db)
    else if OriginReferenced(db, pileId) then Step(Err(Constraint(ForeignKeyViolation)), db)
    else
      Step(Ok(()), db.(piles := db.piles - {pileId}, drops := OrphanDrops(db.drops, pileId),
                       projectPiles := UnlinkPileFromProjects(db.projectPiles, pileId),
                       pileTags := UnlinkPileFromTags(db.pileTags, pileId)))
  }

  /** The drops after their pile is deleted: its drops' `pile_id` set to null. */
  function OrphanDrops(drops: map<Uuid, BrainDrop>, pileId: Uuid): (r: map<Uuid, BrainDrop>)
    ensures r.Keys == drops.Keys
    ensures forall d :: d in drops ==> r[d].id == drops[d].id && r[d].pileId != Some(pileId)
  {
    map d | d in drops :: if drops[d].pileId == Some(pileId) then drops[d].(pileId := None) else drops[d]
  }

  /** The ProjectBrainPileLink rows left once the pile's rows are deleted. */
  function UnlinkPileFromProjects(links: ProjectPileLinks, pileId: Uuid): (r: ProjectPileLinks)
    ensures r <= links
    ensures forall k :: k in r ==> k.1 != pileId
  {
    set k | k in links && k.1 != pileId
  }

  /** The BrainPileTagLink rows left once the pile's rows are deleted. */
  function UnlinkPileFromTags(links: PileTagLinks, pileId: Uuid): (r: PileTagLinks)
    ensures r <= links
    ensures forall k :: k in r ==> k.0 != pileId
  {
    set k | k in links && k.0 != pileId
  }

  /** Removing a pile orphans its drops: each still exists, belongs to no pile,
      and reading its `is_archived` raises. */
  lemma RemovedPileOrphansDrops(db: Db, pileId: Uuid, dropId: Uuid)
    requires Consistent(db) && dropId in db.drops && db.drops[dropId].pileId == Some(pileId)
    requires LinkedProjectsLoad(db, pileId) && !OriginReferenced(db, pileId)
    ensures var r := RemoveBrainPileStep(db, pileId);
            && r.result.Ok?
            && dropId in r.db.drops && r.db.drops[dropId].pileId.None?
            && IsArchived(r.db.drops[dropId], r.db.piles).None?
  {
  }

  // ---------------------------------------------------------------------------
  // Brain drops.

  /** Inserting a drop: its primary key must be set and new, and its pile, if it
      names one (`pile_id` is nullable), must exist. */
  function InsertDropStep(db: Db, drop: BrainDrop): (r: Step<BrainDrop>)
    requires Consistent(db)
    ensures Consistent(r.db)
    ensures drop.id.None? ==> r == Step(Err(Constraint(NotNullViolation)), db)
    ensures r.result.Ok? <==> drop.id.Some? && drop.id.value !in db.drops && RefersTo(drop.pileId, db.piles)
    ensures r.result.Err? ==> r.db == db
    ensures r.result.Ok? ==>
              && r.result.value == drop
              && r.db == db.(drops := r.db.drops)
              && r.db.drops.Keys == db.drops.Keys + {drop.id.value}
              && r.db.drops[drop.id.value] == drop
              && (forall d :: d in db.drops ==> r.db.drops[d] == db.drops[d])
  {
    if drop.id.None? then Step(Err(Constraint(NotNullViolation)), db)
    else if drop.id.value in db.drops then Step(Err(Constraint(UniqueViolation)), db)
    else if !RefersTo(drop.pileId, db.piles) then Step(Err(Constraint(ForeignKeyViolation)), db)
    else Step(Ok(drop), db.(drops := db.drops[drop.id.value := drop]))
  }

  /** add_brain_drop as written builds `BrainDrop(title=..., content_resource_id=...,
      pile_id=...)`, which has no primary key: the insert is refused. */
  lemma DropWithoutIdIsRefused(db: Db, pileId: Uuid, title: string, contentUrl: string)
    requires Consistent(db)
    ensures var drop := BrainDrop(title := title, contentResourceId := Some(contentUrl), pileId := Some(pileId));
            InsertDropStep(db, drop) == Step(Err(Constraint(NotNullViolation)), db)
  {
  }

  /** add_brain_drop with a generated id: one new drop with the given title,
      content id and pile, whose archived flag is read through that pile. */
  function AddBrainDropStep(db: Db, pileId: Uuid, title: string, contentUrl: string, freshId: Uuid): (r: Step<BrainDrop>)
    requires Consistent(db)
    ensures Consistent(r.db)
    ensures r.result.Ok? <==> freshId !in db.drops && pileId in db.piles
    ensures r.result.Err? ==> r.db == db
    ensures r.result.Ok? ==>
              && r.db == db.(drops := r.db.drops)
              && r.db.drops.Keys == db.drops.Keys + {freshId}
              && (forall d :: d in db.drops ==> r.db.drops[d] == db.drops[d])
              && r.result.value == r.db.drops[freshId] && r.result.value.id == Some(freshId)
              && var drop := r.db.drops[freshId];
                 && drop.title == title && drop.contentResourceId == Some(contentUrl) && drop.pileId == Some(pileId)
                 && IsArchived(drop, r.db.piles) == Some(db.piles[pileId].isArchived)
  {
    InsertDropStep(db, BrainDrop(id := Some(freshId), title := title, contentResourceId := Some(contentUrl), pileId := Some(pileId)))
  }

  /** remove_brain_drop: an absent drop is None, which session.delete refuses; an
      existing one is deleted and nothing else changes (no row refers to drops). */
  function RemoveBrainDropStep(db: Db, dropId: Uuid): (r: Step<()>)
    requires Consistent(db)
    ensures Consistent(r.db)
    ensures dropId !in db.drops ==> r == Step(Err(UnmappedInstance), db)
    ensures dropId in db.drops ==>
              && r.result.Ok?
              && r.db == db.(drops := r.db.drops)
              && r.db.drops.Keys == db.drops.Keys - {dropId}
              && (forall d :: d in r.db.drops ==> r.db.drops[d] == db.drops[d])
  {
    if dropId !in db.drops then Step(Err(UnmappedInstance), db)
    else Step(Ok(()), db.(drops := db.drops - {dropId}))
  }

  /** set_brain_drop_content: an absent drop is None, and assigning its field
      raises; for an existing drop only its `content_resource_id` changes, and it
      is committed. */
  function SetBrainDropContentStep(db: Db, dropId: Uuid, contentUrl: string): (r: Step<()>)
    requires Consistent(db)
    ensures Consistent(r.db)
    ensures dropId !in db.drops ==> r == Step(Err(AttributeOfNone), db)
    ensures dropId in db.drops ==>
              && r.result.Ok?
              && r.db == db.(drops := r.db.drops)
              && r.db.drops.Keys == db.drops.Keys
              && r.db.drops[dropId] == db.drops[dropId].(contentResourceId := Some(contentUrl))
              && (forall d :: d in db.drops && d != dropId ==> r.db.drops[d] == db.drops[d])
  {
    if dropId !in db.drops then Step(Err(AttributeOfNone), db)
    else Step(Ok(()), db.(drops := db.drops[dropId := db.drops[dropId].(contentResourceId := Some(contentUrl))]))
  }

  /** `listed` holds the loaded projects of exactly the keys in `seen`, each once. */
  ghost predicate ListsExactly(projects: map<string, ProjectRow>, listed: seq<Project>, seen: set<string>) {
    && (forall i :: 0 <= i < |listed| ==> listed[i].id in seen && listed[i].id in projects
                                          && LoadProject(projects[listed[i].id]) == Ok(listed[i]))
    && (forall i, j :: 0 <= i < j < |listed| ==> listed[i].id != listed[j].id)
    && (forall k :: k in seen ==> exists i :: 0 <= i < |listed| && listed[i].id == k)
  }

  /** Loading one more project, of a key not yet listed, keeps the listing exact. */
  lemma ListsOneMore(projects: map<string, ProjectRow>, listed: seq<Project>, seen: set<string>, k: string, project: Project)
    requires ListsExactly(projects, listed, seen)
    requires k !in seen && k in projects && LoadProject(projects[k]) == Ok(project) && project.id == k
    ensures ListsExactly(projects, listed + [project], seen + {k})
  {
    var after := listed + [project];
    assert after[|listed|].id == k;
    forall i | 0 <= i < |after|
      ensures after[i].id in seen + {k} && after[i].id in projects && LoadProject(projects[after[i].id]) == Ok(after[i])
    {
      if i < |listed| {
        assert after[i] == listed[i];
      }
    }
    forall i, j | 0 <= i < j < |after|
      ensures after[i].id != after[j].id
    {
      assert after[i] == listed[i];
      if j < |listed| {
        assert after[j] == listed[j];
      }
    }
    forall x | x in seen + {k}
      ensures exists i :: 0 <= i < |after| && after[i].id == x
    {
      if x != k {
        var i :| 0 <= i < |listed| && listed[i].id == x;
        assert after[i] == listed[i];
      }
    }
  }

  /** The state of a listing loop: `seen` and `remaining` split the keys, and
      `listed` holds the loaded projects of exactly the keys in `seen`. */
  ghost predicate Listing(rows: map<string, ProjectRow>, listed: seq<Project>, seen: set<string>, remaining: set<string>) {
    && remaining !! seen && remaining + seen == rows.Keys
    && |listed| == |seen|
    && ListsExactly(rows, listed, seen)
  }

  /** Loading one remaining key moves it from `remaining` to `seen`. */
  lemma ListingStep(rows: map<string, ProjectRow>, listed: seq<Project>, seen: set<string>, remaining: set<string>, k: string, project: Project)
    requires Listing(rows, listed, seen, remaining)
    requires k in remaining && LoadProject(rows[k]) == Ok(project) && project.id == k
    ensures Listing(rows, listed + [project], seen + {k}, remaining - {k})
  {
    ListsOneMore(rows, listed, seen, k, project);
  }

  /** Once every key has been seen, the listing holds each project exactly once. */
  lemma ListsAll(projects: map<string, ProjectRow>, listed: seq<Project>)
    requires ListsExactly(projects, listed, projects.Keys)
    ensures forall k :: k in projects ==> LoadProject(projects[k]).Ok?
    ensures forall k :: k in projects ==> exists i :: 0 <= i < |listed| && listed[i].id == k
  {
    forall k | k in projects
      ensures LoadProject(projects[k]).Ok?
    {
      var i :| 0 <= i < |listed| && listed[i].id == k;
    }
  }

  // ---------------------------------------------------------------------------
  // The database the functions of database.py open sessions on.

  class Store {
    var users: map<Uuid, UserRow>
    var projects: map<string, ProjectRow>
    var piles: map<Uuid, BrainPile>
    var drops: map<Uuid, BrainDrop>
    var tags: map<TagId, BrainPileTag>
    var projectUsers: ProjectUserLinks
    var projectPiles: ProjectPileLinks
    var pileTags: PileTagLinks

    function Tables(): Db
      reads this
    {
      Db(users, projects, piles, drops, tags, projectUsers, projectPiles, pileTags)
    }

    ghost predicate Valid()
      reads this
    {
      Consistent(Tables())
    }

    /** The tables `create_all` creates, empty. */
    constructor ()
      ensures Valid() && Tables() == EmptyDb
    {
      users, projects, piles, drops, tags := map[], map[], map[], map[], map[];
      projectUsers, projectPiles, pileTags := map[], {}, {};
    }

    method GetUserConfig(userId: Uuid) returns (r: Result<UserConfig, DbError>)
      ensures r == UserConfigOf(Tables(), userId)
      ensures userId !in users ==> r == Err(UserNotFound)
      ensures userId in users && users[userId].config == JNull ==> r == Ok(UserConfig())
    {
      if userId !in users {
        return Err(UserNotFound);
      }
      var user := users[userId];
      match DecodeUserConfig(user.config) {
        case Ok(config) => r := Ok(config);
        case Err(e) => r := Err(Invalid(e));
      }
    }

    method SetUserConfig(userId: Uuid, config: UserConfig) returns (r: Result<(), DbError>)
      requires Valid()
      modifies this
      ensures var step := SetUserConfigStep(old(Tables()), userId, config);
              r == step.result && Tables() == step.db
      ensures Valid()
    {
      if userId !in users {
        // The new User only reaches a session that is never committed.
        return Ok(());
      }
      var user := users[userId];
      match DecodeUserConfig(user.config) {
        case Err(e) =>
          return Err(Invalid(e));
        case Ok(_) =>
          users := users[userId := user.(config := EncodeUserConfig(Some(config)))];
          r := Ok(());
      }
    }

    method NewProject(creatorUserId: Uuid, title: string, freshId: NanoId) returns (r: Result<Project, DbError>)
      requires Valid()
      modifies this
      ensures var step := NewProjectStep(old(Tables()), creatorUserId, title, freshId);
              r == step.result && Tables() == step.db
      ensures Valid()
    {
      var project := Project(freshId, title);
      if freshId in projects {
        return Err(Constraint(UniqueViolation));
      }
      // The flush writes the project row; the link row is added and committed with it.
      var row := DumpProject(project);
      var flushed := projects[freshId := row];
      var link := ProjectUserLink(projectId := Some(freshId), userId := Some(creatorUserId), role := AdminRole);
      var inserted := InsertProjectUserLink(projectUsers, flushed, users, link);
      if inserted.Err? {
        return Err(Constraint(inserted.error));
      }
      NewProjectCommits(Tables(), creatorUserId, title, freshId, inserted.value);
      projects, projectUsers := flushed, inserted.value;
      // The commit is followed by a refresh, which reloads the row just written.
      ProjectRowRoundTrip(project);
      var refreshed := LoadProject(row);
      r := Ok(refreshed.value);
    }

    /** list_projects: every stored project, each once, loaded; loading fails if
        some stored config does not validate. */
    method ListProjects() returns (r: Result<seq<Project>, DbError>)
      requires forall k :: k in projects ==> projects[k].id == k  // implied by Valid()
      ensures r.Ok? <==> forall k :: k in projects ==> LoadProject(projects[k]).Ok?
      ensures r.Ok? ==> |r.value| == |projects| && ListsExactly(projects, r.value, projects.Keys)
    {
      var rows := projects;
      var remaining := rows.Keys;
      var listed: seq<Project> := [];
      ghost var seen: set<string> := {};
      while remaining != {}
        invariant Listing(rows, listed, seen, remaining)
        decreases remaining
      {
        var k :| k in remaining;
        var loaded := LoadProject(rows[k]);
        if loaded.Err? {
          return Err(Invalid(loaded.error));
        }
        ListingStep(rows, listed, seen, remaining, k, loaded.value);
        listed := listed + [loaded.value];
        seen := seen + {k};
        remaining := remaining - {k};
      }
      assert seen == rows.Keys;
      ListsAll(rows, listed);
      r := Ok(listed);
    }

    method SetProjectTitle(projectId: string, title: string) returns (r: Result<(), DbError>)
      requires Valid()
      modifies this
      ensures var step := SetProjectTitleStep(old(Tables()), projectId, title);
              r == step.result && Tables() == step.db
      ensures Valid()
    {
      if projectId !in projects {
        return Err(AttributeOfNone);
      }
      var loaded := LoadProject(projects[projectId]);
      if loaded.Err? {
        return Err(Invalid(loaded.error));
      }
      // The title is set on the loaded object only; the session is never committed.
      r := Ok(());
    }

    /** new_brain_pile with its intended effect; `freshId` is the generated id. */
    method NewBrainPile(title: string, projectId: string, freshId: Uuid) returns (r: Result<BrainPile, DbError>)
      requires Valid()
      modifies this
      ensures var step := NewBrainPileStep(old(Tables()), title, projectId, freshId);
              r == step.result && Tables() == step.db
      ensures Valid()
    {
      var pile := BrainPile(id := Some(freshId), title := title);
      if freshId in piles {
        return Err(Constraint(UniqueViolation));
      }
      if projectId !in projects {
        return Err(Constraint(ForeignKeyViolation));
      }
      piles := piles[freshId := pile];
      projectPiles := projectPiles + {(projectId, freshId)};
      r := Ok(pile);
    }

    method RemoveBrainPile(pileId: Uuid) returns (r: Result<(), DbError>)
      requires Valid()
      modifies this
      ensures var step := RemoveBrainPileStep(old(Tables()), pileId);
              r == step.result && Tables() == step.db
      ensures Valid()
    {
      ghost var step := RemoveBrainPileStep(Tables(), pileId);
      if pileId !in piles {
        return Err(UnmappedInstance);
      }
      if !LinkedProjectsLoad(Tables(), pileId) {
        return Err(InvalidLinkedProject);
      }
      if OriginReferenced(Tables(), pileId) {
        return Err(Constraint(ForeignKeyViolation));
      }
      // The flush nulls the drops' pile_id, deletes the link rows, then the pile.
      drops := OrphanDrops(drops, pileId);
      projectPiles := UnlinkPileFromProjects(projectPiles, pileId);
      pileTags := UnlinkPileFromTags(pileTags, pileId);
      piles := piles - {pileId};
      r := Ok(());
    }

    /** add_brain_drop with a generated id `freshId`. */
    method AddBrainDrop(pileId: Uuid, title: string, contentUrl: string, freshId: Uuid) returns (r: Result<BrainDrop, DbError>)
      requires Valid()
      modifies this
      ensures var step := AddBrainDropStep(old(Tables()), pileId, title, contentUrl, freshId);
              r == step.result && Tables() == step.db
      ensures Valid()
    {
      var drop := BrainDrop(id := Some(freshId), title := title, contentResourceId := Some(contentUrl), pileId := Some(pileId));
      if freshId in drops {
        return Err(Constraint(UniqueViolation));
      }
      if pileId !in piles {
        return Err(Constraint(ForeignKeyViolation));
      }
      drops := drops[freshId := drop];
      r := Ok(drop);
    }

    method RemoveBrainDrop(dropId: Uuid) returns (r: Result<(), DbError>)
      requires Valid()
      modifies this
      ensures var step := RemoveBrainDropStep(old(Tables()), dropId);
              r == step.result && Tables() == step.db
      ensures Valid()
    {
      if dropId !in drops {
        return Err(UnmappedInstance);
      }
      drops := drops - {dropId};
      r := Ok(());
    }

    method SetBrainDropContent(dropId: Uuid, contentUrl: string) returns (r: Result<(), DbError>)
      requires Valid()
      modifies this
      ensures var step := SetBrainDropContentStep(old(Tables()), dropId, contentUrl);
              r == step.result && Tables() == step.db
      ensures Valid()
    {
      if dropId !in drops {
        return Err(AttributeOfNone);
      }
      var drop := drops[dropId];
      drops := drops[dropId := drop.(contentResourceId := Some(contentUrl))];
      r := Ok(());
    }
  }
}

=== FILE: json.dfy ===
/** JSON values as a PostgreSQL JSONB column holds them, and the validation rule
    that a Pydantic model applies to one `Optional[str]` field of such a value. */
module Json {
  import opened Wrappers

  /** A JSON value. JSON numbers are kept as integers. */
  datatype Json =
    | JNull
    | JBool(b: bool)
    | JNumber(n: int)
    | JString(s: string)
    | JArray(items: seq<Json>)
    | JObject(fields: map<string, Json>)

  /** Why `model_validate` rejected a stored value. */
  datatype ValidationError =
    | NotAnObject                // the stored value is not a JSON object
    | NotAString(field: string)  // an Optional[str] field holds something other than a string or null

  /** How `model_dump` writes an `Optional[str]` field. */
  function OptionalString(v: Option<string>): (j: Json)
    ensures j == JNull <==> v.None?
    ensures v.Some? ==> j == JString(v.value)
  {
    match v
    case None => JNull
    case Some(s) => JString(s)
  }

  /** How `model_validate` reads an `Optional[str]` field: an absent key takes the
      field's default, null reads as None, a string as itself, anything else fails. */
  function OptionalStringField(fields: map<string, Json>, key: string, default: Option<string>): (r: Result<Option<string>, ValidationError>)
    ensures key !in fields ==> r == Ok(default)
    ensures key in fields ==> (r.Ok? <==> fields[key].JNull? || fields[key].JString?)
    ensures r.Err? ==> r.error == NotAString(key)
  {
    if key !in fields then Ok(default)
    else match fields[key]
      case JNull => Ok(None)
      case JString(s) => Ok(Some(s))
      case _ => Err(NotAString(key))
  }

  /** Reading back what `OptionalString` wrote gives the original value, whatever the default. */
  lemma OptionalStringRoundTrip(fields: map<string, Json>, key: string, v: Option<string>, default: Option<string>)
    requires key in fields && fields[key] == OptionalString(v)
    ensures OptionalStringField(fields, key, default) == Ok(v)
  {
  }
}

=== FILE: models.dfy ===
/** The entity schema of app/models/models.py: the link tables, the User, Project,
    BrainPile, BrainDrop and BrainPileTag records with their defaults, the typed
    UserConfig and ProjectConfig with the column decorators that encode and decode
    them, and the derived `BrainDrop.is_archived`.

    A record here is what one ORM object holds before it is written: its primary
    key is `None` until something assigns one. The access layer keeps each table
    as a map from primary key to row. */
module Models {
  import opened Wrappers
  import opened Json

  /** A 128-bit UUID primary key (User, BrainPile, BrainDrop). */
  type Uuid = x: nat | x < 0x1_0000_0000_0000_0000_0000_0000_0000_0000

  /** The sequential integer primary key of BrainPileTag. */
  type TagId = nat

  /** `generate_nanoid` returns `nanoid.generate(size=12)`, and `project.id` is a
      String(12) column. The random characters come from outside the model, so a
      generated id is any string of exactly this many characters. */
  const NanoIdSize := 12

  type NanoId = s: string | |s| == NanoIdSize witness "000000000000"

  /** Width of the non-null `role` column of ProjectUserLink: String(20). */
  const RoleWidth := 20

  const GuestRole := "guest"
  const AdminRole := "admin"
  const DefaultDescription := "no description"
  const DefaultPileTitle := "unnamed brain pile"
  const DefaultDropTitle := "unnamed brain drop"

  /** The errors PostgreSQL raises when a row breaks a column or key constraint.
      SQLAlchemy surfaces a too-long string as DataError and the other three as
      IntegrityError; the model does not need that split. */
  datatype ConstraintError =
    | NotNullViolation     // a NOT NULL column (every primary-key column) holds None
    | UniqueViolation      // a primary key or unique column value is already present
    | ForeignKeyViolation  // a foreign key names a row that does not exist
    | ValueTooLong         // a string too long for its String(n) column, past trailing spaces

  // ---------------------------------------------------------------------------
  // Link tables. Each has a composite primary key, so a table holds at most one
  // row per pair of ids: the ProjectUserLink table is a map from the pair to the
  // role, the two others are sets of pairs.

  datatype ProjectBrainPileLink = ProjectBrainPileLink(projectId: Option<string> := None, pileId: Option<Uuid> := None)

  datatype ProjectUserLink = ProjectUserLink(projectId: Option<string> := None, userId: Option<Uuid> := None, role: string := GuestRole)

  datatype BrainPileTagLink = BrainPileTagLink(pileId: Option<Uuid> := None, tagId: Option<TagId> := None)

  type ProjectPileLinks = set<(string, Uuid)>

  type ProjectUserLinks = map<(string, Uuid), string>

  type PileTagLinks = set<(Uuid, TagId)>

  // Every link column is also a foreign key. PostgreSQL checks a row's own
  // columns first (width, then NOT NULL), then the primary-key index, and the
  // foreign keys last; each insert below reports the first constraint broken.
  // The maps passed in are the tables the link refers to, keyed by primary key.

  /** Whether a varchar(n) column takes the string `s`: one of at most n
      characters always, a longer one only when every character past the n-th
      is a space. PostgreSQL follows the SQL standard here. */
  predicate FitsVarchar(s: string, n: nat) {
    |s| <= n || forall i :: n <= i < |s| ==> s[i] == ' '
  }

  /** What a varchar(n) column stores for a string it takes: the string cut to
      n characters, which drops only trailing spaces. */
  function StoredVarchar(s: string, n: nat): (r: string)
    requires FitsVarchar(s, n)
    ensures |r| <= n && |r| <= |s| && r == s[..|r|]
    ensures |s| <= n ==> r == s
    ensures forall i :: |r| <= i < |s| ==> s[i] == ' '
  {
    if |s| <= n then s else s[..n]
  }

  /** Inserting a ProjectUserLink row: the role must fit String(20), both key
      columns are non-null, the pair must be new, and the project and the user
      must exist. */
  function InsertProjectUserLink<P, U>(links: ProjectUserLinks, projects: map<string, P>, users: map<Uuid, U>, row: ProjectUserLink)
    : (r: Result<ProjectUserLinks, ConstraintError>)
    ensures r.Ok? <==> && FitsVarchar(row.role, RoleWidth) && row.projectId.Some? && row.userId.Some?
                       && (row.projectId.value, row.userId.value) !in links
                       && row.projectId.value in projects && row.userId.value in users
    ensures r.Ok? ==> r.value == links[(row.projectId.value, row.userId.value) := StoredVarchar(row.role, RoleWidth)]
  {
    if !FitsVarchar(row.role, RoleWidth) then Err(ValueTooLong)
    else if row.projectId.None? || row.userId.None? then Err(NotNullViolation)
    else if (row.projectId.value, row.userId.value) in links then Err(UniqueViolation)
    else if row.projectId.value !in projects || row.userId.value !in users then Err(ForeignKeyViolation)
    else Ok(links[(row.projectId.value, row.userId.value) := StoredVarchar(row.role, RoleWidth)])
  }

  /** Inserting a ProjectBrainPileLink row: both key columns non-null, the pair
      new, and the project and the pile existing. */
  function InsertProjectPileLink<P, B>(links: ProjectPileLinks, projects: map<string, P>, piles: map<Uuid, B>, row: ProjectBrainPileLink)
    : (r: Result<ProjectPileLinks, ConstraintError>)
    ensures r.Ok? <==> && row.projectId.Some? && row.pileId.Some? && (row.projectId.value, row.pileId.value) !in links
                       && row.projectId.value in projects && row.pileId.value in piles
    ensures r.Ok? ==> r.value == links + {(row.projectId.value, row.pileId.value)} && |r.value| == |links| + 1
  {
    if row.projectId.None? || row.pileId.None? then Err(NotNullViolation)
    else if (row.projectId.value, row.pileId.value) in links then Err(UniqueViolation)
    else if row.projectId.value !in projects || row.pileId.value !in piles then Err(ForeignKeyViolation)
    else Ok(links + {(row.projectId.value, row.pileId.value)})
  }

  /** Inserting a BrainPileTagLink row: both key columns non-null, the pair new,
      and the pile and the tag existing. */
  function InsertPileTagLink<B, T>(links: PileTagLinks, piles: map<Uuid, B>, tags: map<TagId, T>, row: BrainPileTagLink)
    : (r: Result<PileTagLinks, ConstraintError>)
    ensures r.Ok? <==> && row.pileId.Some? && row.tagId.Some? && (row.pileId.value, row.tagId.value) !in links
                       && row.pileId.value in piles && row.tagId.value in tags
    ensures r.Ok? ==> r.value == links + {(row.pileId.value, row.tagId.value)} && |r.value| == |links| + 1
  {
    if row.pileId.None? || row.tagId.None? then Err(NotNullViolation)
    else if (row.pileId.value, row.tagId.value) in links then Err(UniqueViolation)
    else if row.pileId.value !in piles || row.tagId.value !in tags then Err(ForeignKeyViolation)
    else Ok(links + {(row.pileId.value, row.tagId.value)})
  }

  /** A link row's role fits its column: the default role and the role
      `new_project` gives a creator both do. */
  lemma LinkRolesFit()
    ensures ProjectUserLink().role == GuestRole && |ProjectUserLink().role| <= RoleWidth
    ensures |AdminRole| <= RoleWidth
  {
  }

  // ---------------------------------------------------------------------------
  // BrainPileTag: a sequential integer id and a unique name.

  datatype BrainPileTag = BrainPileTag(id: Option<TagId> := None, name: string)

  /** No two tags share a name (the unique index on `brainpiletag.name`). */
  predicate UniqueTagNames(tags: map<TagId, BrainPileTag>) {
    forall a, b :: a in tags && b in tags && tags[a].name == tags[b].name ==> a == b
  }

  /** Inserting a tag: an unset id takes `serial`, the next value of the id
      sequence; the id and the name must both be new. */
  function InsertTag(tags: map<TagId, BrainPileTag>, serial: TagId, row: BrainPileTag): (r: Result<map<TagId, BrainPileTag>, ConstraintError>)
    ensures var id := row.id.GetOr(serial);
            r.Ok? <==> id !in tags && forall t :: t in tags ==> tags[t].name != row.name
    ensures r.Ok? ==> var id := row.id.GetOr(serial);
                      r.value == tags[id := row.(id := Some(id))]
    ensures r.Ok? && UniqueTagNames(tags) ==> UniqueTagNames(r.value)
  {
    var id := row.id.GetOr(serial);
    if id in tags then Err(UniqueViolation)
    else if exists t :: t in tags && tags[t].name == row.name then Err(UniqueViolation)
    else Ok(tags[id := row.(id := Some(id))])
  }

  // ---------------------------------------------------------------------------
  // Typed configuration, stored in a JSONB column through a TypeDecorator.

  const DefaultProjectIdKey := "default_project_id"
  const DescriptionKey := "description"

  datatype UserConfig = UserConfig(defaultProjectId: Option<string> := None)

  datatype ProjectConfig = ProjectConfig(description: Option<string> := Some(DefaultDescription))

  /** `UserConfigDecorator.process_bind_param`: None is stored as null, a config as
      the object `model_dump` gives, with its one field. */
  function EncodeUserConfig(value: Option<UserConfig>): (j: Json)
    ensures j == JNull <==> value.None?
    ensures value.Some? ==> j.JObject? && j.fields.Keys == {DefaultProjectIdKey}
  {
    match value
    case None => JNull
    case Some(c) => JObject(map[DefaultProjectIdKey := OptionalString(c.defaultProjectId)])
  }

  /** `UserConfigDecorator.process_result_value`: a stored null reads as the default
      config, anything else goes through `UserConfig.model_validate`. */
  function DecodeUserConfig(j: Json): (r: Result<UserConfig, ValidationError>)
    ensures j == JNull ==> r == Ok(UserConfig())
    ensures j.JObject? && DefaultProjectIdKey !in j.fields ==> r == Ok(UserConfig())
    ensures r.Err? <==> !j.JNull? && (!j.JObject? || (DefaultProjectIdKey in j.fields &&
                          !j.fields[DefaultProjectIdKey].JNull? && !j.fields[DefaultProjectIdKey].JString?))
  {
    match j
    case JNull => Ok(UserConfig())
    case JObject(fields) =>
      var v :- OptionalStringField(fields, DefaultProjectIdKey, UserConfig().defaultProjectId);
      Ok(UserConfig(defaultProjectId := v))
    case _ => Err(NotAnObject)
  }

  /** Writing a user config and reading it back gives it back; writing None reads
      back as the default config (whose `default_project_id` is None). */
  lemma UserConfigRoundTrip(value: Option<UserConfig>)
    ensures DecodeUserConfig(EncodeUserConfig(value)) == Ok(value.GetOr(UserConfig()))
    ensures DecodeUserConfig(EncodeUserConfig(None)).value.defaultProjectId == None
  {
    if value.Some? {
      OptionalStringRoundTrip(EncodeUserConfig(value).fields, DefaultProjectIdKey, value.value.defaultProjectId, None);
    }
  }

  /** `ProjectConfigDecorator.process_bind_param`. */
  function EncodeProjectConfig(value: Option<ProjectConfig>): (j: Json)
    ensures j == JNull <==> value.None?
    ensures value.Some? ==> j.JObject? && j.fields.Keys == {DescriptionKey}
  {
    match value
    case None => JNull
    case Some(c) => JObject(map[DescriptionKey := OptionalString(c.description)])
  }

  /** `ProjectConfigDecorator.process_result_value`: a stored null, or an object
      without a description, reads as the default "no description". */
  function DecodeProjectConfig(j: Json): (r: Result<ProjectConfig, ValidationError>)
    ensures j == JNull ==> r == Ok(ProjectConfig(description := Some(DefaultDescription)))
    ensures j.JObject? && DescriptionKey !in j.fields ==> r == Ok(ProjectConfig(description := Some(DefaultDescription)))
    ensures r.Err? <==> !j.JNull? && (!j.JObject? || (DescriptionKey in j.fields &&
                          !j.fields[DescriptionKey].JNull? && !j.fields[DescriptionKey].JString?))
  {
    match j
    case JNull => Ok(ProjectConfig())
    case JObject(fields) =>
      var v :- OptionalStringField(fields, DescriptionKey, ProjectConfig().description);
      Ok(ProjectConfig(description := v))
    case _ => Err(NotAnObject)
  }

  /** Writing a project config and reading it back gives it back, an explicit
      null description included; writing None reads back as the default. */
  lemma ProjectConfigRoundTrip(value: Option<ProjectConfig>)
    ensures DecodeProjectConfig(EncodeProjectConfig(value)) == Ok(value.GetOr(ProjectConfig()))
    ensures DecodeProjectConfig(EncodeProjectConfig(None)).value.description == Some(DefaultDescription)
  {
    if value.Some? {
      OptionalStringRoundTrip(EncodeProjectConfig(value).fields, DescriptionKey, value.value.description, Some(DefaultDescription));
    }
  }

  // ---------------------------------------------------------------------------
  // Entities.

  datatype User = User(id: Option<Uuid> := None, name: string, config: UserConfig := UserConfig())

  /** `id` has no default in the record: the column's default factory,
      `generate_nanoid`, runs when the object is built, so every Project has one. */
  datatype Project = Project(id: string, title: string, description: Option<string> := None, config: ProjectConfig := ProjectConfig())

  datatype BrainPile = BrainPile(
    id: Option<Uuid> := None,
    title: string := DefaultPileTitle,
    isArchived: bool := false,
    isPublic: bool := false,
    creatorId: Option<Uuid> := None,
    origin: Option<Uuid> := None)

  datatype BrainDrop = BrainDrop(
    id: Option<Uuid> := None,
    title: string := DefaultDropTitle,
    contentResourceId: Option<string> := None,
    pileId: Option<Uuid> := None)

  /** A new record's fields before anything is assigned to them. The BrainPile and
      BrainDrop primary keys default to None and nothing generates them. */
  lemma RecordDefaults(name: string, id: NanoId, title: string)
    ensures User(name := name).config == UserConfig() && User(name := name).config.defaultProjectId.None?
    ensures |Project(id, title).id| == NanoIdSize && Project(id, title).config.description == Some(DefaultDescription)
    ensures var p := BrainPile();
            p.id.None? && p.title == DefaultPileTitle && !p.isArchived && !p.isPublic && p.creatorId.None? && p.origin.None?
    ensures var d := BrainDrop();
            d.id.None? && d.title == DefaultDropTitle && d.contentResourceId.None? && d.pileId.None?
  {
  }

  /** `BrainDrop.is_archived`: read through the drop's `pile` relationship, which
      loads the pile its `pile_id` names. A drop without a pile raises
      AttributeError, given here as None. */
  function IsArchived(drop: BrainDrop, piles: map<Uuid, BrainPile>): (r: Option<bool>)
    ensures r.Some? <==> drop.pileId.Some? && drop.pileId.value in piles
    ensures r.Some? ==> r.value == piles[drop.pileId.value].isArchived
  {
    match drop.pileId
    case None => None
    case Some(p) => if p in piles then Some(piles[p].isArchived) else None
  }

  /** The flag is not stored on the drop: two drops of one pile always agree,
      whatever their own fields, and setting the pile's flag sets theirs. */
  lemma ArchivedFollowsPile(d1: BrainDrop, d2: BrainDrop, piles: map<Uuid, BrainPile>, flag: bool)
    requires d1.pileId == d2.pileId
    ensures IsArchived(d1, piles) == IsArchived(d2, piles)
    ensures d1.pileId.Some? && d1.pileId.value in piles ==>
              var p := d1.pileId.value;
              IsArchived(d1, piles[p := piles[p].(isArchived := flag)]) == Some(flag)
  {
  }
}

=== FILE: models_new.dfy ===
/** The alternative entity schema of app/models/models_new.py. It declares the
    link tables, BrainPileTag, BrainPile and BrainDrop with the same columns, keys
    and defaults as app/models/models.py, so those are taken from `Models`. What differs: `User.config` and
    `Project.config` are non-null JSONB columns holding a string-keyed map that
    defaults to empty, and the typed UserConfig / ProjectConfig are plain records
    not tied to any column. */
module ModelsNew {
  import opened Wrappers
  import opened Json
  import Models

  datatype UserConfig = UserConfig(defaultProjectId: Option<string> := None)

  datatype ProjectConfig = ProjectConfig(defaultBackground: Option<string> := None)

  /** A map-valued config: any JSON value under any string key. */
  type Config = map<string, Json>

  datatype User = User(id: Option<Models.Uuid> := None, name: string, config: Config := map[])

  datatype Project = Project(id: string, title: string, description: Option<string> := None, config: Config := map[])

  /** How a `MutableDict` over JSONB writes a config: always a JSON object, so the
      non-null column never receives null. */
  function StoreConfig(config: Config): (j: Json)
    ensures j.JObject? && j != JNull
    ensures j.fields == config
  {
    JObject(config)
  }

  /** How a stored JSONB value loads into the `MutableDict`: only an object is a
      dict; any other stored value is refused (None). */
  function LoadConfig(j: Json): (r: Option<Config>)
    ensures r.Some? <==> j.JObject?
    ensures forall c :: j == StoreConfig(c) ==> r == Some(c)
  {
    match j
    case JObject(fields) => Some(fields)
    case _ => None
  }

  /** Defaults of the new schema: both configs are empty maps, the typed configs'
      fields are None, and a Project's generated id has twelve characters. */
  lemma NewSchemaDefaults(name: string, id: Models.NanoId, title: string)
    ensures User(name := name).config == map[] && User(name := name).id.None?
    ensures Project(id, title).config == map[] && |Project(id, title).id| == Models.NanoIdSize
    ensures UserConfig().defaultProjectId.None? && ProjectConfig().defaultBackground.None?
    ensures LoadConfig(StoreConfig(User(name := name).config)) == Some(map[])
  {
  }
}

=== FILE: wrappers.dfy ===
/** Option and Result, the failure-compatible wrappers the rest of the model uses
    for Python's None and for raised exceptions. */
module Wrappers {

  datatype Option<+T> = None | Some(value: T) {

    /** The wrapped value, or `default` for None. */
    function GetOr(default: T): T {
      match this
      case Some(v) => v
      case None => default
    }
  }

  datatype Result<+T, +E> = Ok(value: T) | Err(error: E) {

    predicate IsFailure() {
      Err?
    }

    function PropagateFailure<U>(): Result<U, E>
      requires Err?
    {
      Err(error)
    }

    function Extract(): T
      requires Ok?
    {
      value
    }
  }
}
